=== FILE: README.md ===
# SnailStorage disk-usage engine, in Dafny

SnailStorage is a Tkinter storage viewer. Its logic sits in `DarkThemeApp`:

- **Folder scan.** It scans a directory. For each immediate subdirectory that is not a symbolic link, it measures the bytes of the regular files below it. Then it lists those subdirectories largest first.
- **Session.** It keeps a small session: the scan root, the viewed directory, the results and the selected folder.
- **Actions.** The user can drill into a folder, go back to the root, or delete a folder. Deleting restarts the session.
- **Size display.** It shows each size in B, KB, MB, GB, TB or PB.

This project models that engine over an immutable filesystem tree and proves its properties.

- `wrappers.dfy`: `Option` and `Result`.
- `tree.dfy` (`FileTree`): the filesystem snapshot. A `Node` is a directory that can be listed and searched, a directory that can be listed but not searched, a directory that cannot be listed, a regular file, a special file, or a symbolic link (to a regular file, to a directory, to a special file, or to nothing). Paths are sequences of names. `Bytes` is the reference disk usage of a subtree, and `Remove` is a successful `rmtree`.
- `folder_size.dfy` (`FolderSize`): `_get_folder_size`. `Walk` gives the `filenames` lists of a top-down `os.walk` in the order they are visited. The method `GetFolderSize` runs the program's nested loop over that walk, and the lemmas prove it equal to `Bytes`.
- `sorting.dfy` (`Sorting`): `list.sort(key=size, reverse=True)` as a stable insertion sort. It is proved to be a permutation and descending. It is also proved stable: for every size, the entries of that size keep their listing order. Finally, it is proved to be the only sequence with these properties.
- `scanner.dfy` (`Scanner`): `_scan_folders`, both as a function `Scan` and as the program's loop `ScanFolders`.
- `navigation.dfy` (`Navigation`): the session record and the transitions `_start_scan`, `_scan_selected_folder`, `_back_to_root`, `_show_folder_details` and `_delete_folder`, modelled as written.
- `session.dfy` (`Session`): sequences of button presses, the invariants they keep, and the counterexample behind the finding below.
- `size_format.dfy` (`SizeFormat`): `_format_size`, with the value kept as an exact fraction.

Where the code's behaviour is easy to misread, the model follows the code:

- A scan that raises happens after `root_scan_path` or `current_scan_path` has already been assigned. Those assignments stay, while `scan_results` and `selected_folder` keep their old values.
- A successful delete does not rescan the viewed directory. It calls `_start_scan`, which resets both root and viewed directory to the mountpoint selected in the dropdown.
- That rescan runs inside the delete's `try`. If it raises, the user sees both "Folder deleted" and "Failed to delete folder" (`DeletedRescanFailed`).
- A symbolic link to a directory is listed by `os.walk` among `dirnames` but is never entered. A link to a regular file is counted at its target's size, because `os.path.isfile` and `os.path.getsize` follow links. A dangling link counts 0.
- An unreadable subdirectory still gets a scan entry, of size 0. Scanning it directly raises `PermissionError`.
- A directory that can be listed but not searched shows its entries, but no `stat` of them succeeds. `os.walk` therefore yields its own `filenames`, each of which fails `os.path.isfile`, and cannot list any of its subdirectories. Its disk usage is 0, and scanning it lists its real subdirectories, each of size 0.
- The results tab returns early with "No scan results yet." when there are no results, before it reaches the Back button. Back is therefore drawn only when the viewed directory is not the root and it has subfolders to list. After drilling into a folder without subfolders, only a new start leaves it.

## Model

| member | source | states |
|---|---|---|
| FolderSize.GetFolderSize | SnailStorage.py:138-149 | For any directory that is not a link, the nested loop over the walk's `filenames` returns exactly the subtree's disk usage. In that disk usage, directories that cannot be listed or searched, dangling links, special files and links to directories add 0. The method has no error result. |
| FolderSize.WalkTotal | SnailStorage.py:140-145 | The sum over all levels of a top-down `os.walk` with `onerror` ignored equals the structural disk usage. This holds even though the walk visits files level by level, not in child order. An unreadable directory yields no level and counts 0. |
| FolderSize.LevelTotal | SnailStorage.py:140-145 | In one listing, the files the walk counts at that level plus the walks of the descended subdirectories equal the children's total. Directory links are in neither part. |
| FolderSize.Walk | SnailStorage.py:140 | The walk yields at least one level exactly for a directory that can be listed. No `filenames` list holds a directory or a link to one. |
| Scanner.ListEntries | SnailStorage.py:130-134 | An entry is in the unsorted list if and only if it is `(path/name, disk usage)` for a child that is a directory and not a link. The list length is the number of such children. |
| Scanner.Scan | SnailStorage.py:129-136 | A scan succeeds exactly when the path names a directory that can be listed. NotFound is returned exactly for a missing path or a dangling link, where `os.scandir` raises `FileNotFoundError`. PermissionDenied is returned exactly for a directory that cannot be listed. Results are descending by size, and every result path is one name below the scanned path. In a directory that cannot be searched every result has size 0. |
| Scanner.ScanFolders | SnailStorage.py:129-136 | The program's loop, using `GetFolderSize` for every kept child, computes the same result as `Scan`, including the error cases. |
| Scanner.ScanContents | SnailStorage.py:130-135 | A successful scan has exactly one entry per listed child that is a directory and not a link, each with that child's disk usage as the listing reaches it. Its order is a stable descending sort of the listing. |
| Scanner.ScanEmptyIffNoSubdirectories | SnailStorage.py:130-136 | A listable directory scans to an empty result if and only if none of its children is a directory that is not a link. |
| Scanner.FixtureSizes | SnailStorage.py:138-149 | In a fixture volume holding every kind of entry, only the 3-byte file, the link to a 4-byte file and the 5-byte file in a searchable subdirectory count, giving 12. The file below an unsearchable directory is not counted. |
| Scanner.FixtureScan | SnailStorage.py:129-136 | Scanning the fixture's root lists exactly its two real directories, `a` and `c`, at 12 bytes each, in listing order because their sizes tie. The link to a directory and the top-level file give no entry. |
| Sorting.Insert | SnailStorage.py:135 | Inserting adds exactly one occurrence of the element and keeps a descending sequence descending. |
| Sorting.SortDescending | SnailStorage.py:135 | The sort returns a permutation of its input with non-increasing keys. |
| Sorting.SortIsStable | SnailStorage.py:135 | For every key, the sorted entries with that key appear in their original listing order. |
| Sorting.SortDescendingIsStableSort | SnailStorage.py:135 | The sort's result meets the definition of a stable descending sort of its input. |
| Sorting.DescendingDeterminedByKeys | SnailStorage.py:135 | Two descending sequences with the same per-key subsequences are equal. |
| Sorting.StableSortIsUnique | SnailStorage.py:135 | A sequence is a stable descending sort of the input if and only if it is the sort's result. |
| Navigation.IndexOf | SnailStorage.py:120 | `list.index` returns the first position holding the label, or fails exactly when the label is absent. |
| Navigation.MountFor | SnailStorage.py:120-121 | The mountpoint lookup succeeds exactly when the selected label is listed and its first position has a mountpoint. The mountpoint returned is the one at the first position holding the label. |
| Navigation.StartScan | SnailStorage.py:119-125 | Once the mountpoint is found, root and viewed path are the mountpoint, whether or not the scan then raises. On success the results are a fresh scan of it, the selection is cleared and no Back button is offered. A failed mountpoint lookup changes nothing. A failed scan keeps the old results and selection. |
| Navigation.StartScanFixed | SnailStorage.py:119-125 | This corrected start has the same success behaviour: root and viewed path are the mountpoint, the results are its fresh scan and nothing is selected. Any failure leaves the whole session unchanged. |
| Navigation.DrillIn | SnailStorage.py:186-189 | Drilling in always sets the viewed path to the folder and never changes the root. It succeeds exactly when that folder scans. On success the results are its scan and the selection is cleared. On failure, results and selection are kept. |
| Navigation.BackToRoot | SnailStorage.py:192-195 | Back views the root again and offers no Back button. On success the session is coherent with a fresh scan of the root and no selection. On failure, results and selection are kept. |
| Navigation.BackOffered | SnailStorage.py:154-166 | The definition of when Back is drawn: there are results, so the tab passes its early return, and the viewed directory is not the root. Its contract records only the first half. `DrillInKeepsCoherent`, `StartScan` and `BackToRoot` state what it means after each transition. |
| Navigation.Select | SnailStorage.py:175-176 | Clicking a displayed result makes it the selection and changes nothing else. |
| Navigation.DeleteFolder | SnailStorage.py:198-206 | A declined confirmation or a failed `rmtree` leaves the tree and the session unchanged. A successful removal deletes the subtree and sets the session to what a start on the dropdown's device gives. Once `rmtree` returns, the "Folder deleted" dialog is shown in both outcomes. The report is `DeletedAndRescanned` exactly when the rescan then succeeds, and `DeletedRescanFailed` otherwise. |
| Session.ApplyKeepsSelectionValid | SnailStorage.py:168-176 | Every button press, succeeding or raising, keeps the selection empty or among the displayed results. |
| Session.RunKeepsSelectionValid | SnailStorage.py:119-206 | The selection invariant holds after any sequence of button presses. |
| Session.Apply | SnailStorage.py:116-183 | Only Delete, pressed with a selection, changes the filesystem. Only Start and Delete change the root. Clicking a folder that is not displayed does nothing. |
| Session.ApplyCorrectedKeepsWithinRoot | SnailStorage.py:119-206 | With the corrected start, every button press keeps the viewed path and all displayed results at or below the root. |
| Session.RunCorrectedKeepsWithinRoot | SnailStorage.py:119-206 | With the corrected start, the within-root invariant holds after any sequence of button presses. |
| Session.DrillInKeepsCoherent | SnailStorage.py:154-189 | Opening a displayed folder of a coherent session with a successful scan gives a coherent session one level deeper. It offers Back exactly when the folder's scan is non-empty. |
| Session.DrillInThenBack | SnailStorage.py:186-195 | Drilling into any folder and then pressing Back gives exactly the state a fresh start on the root gives. This holds even if the drill-in scan failed. |
| Session.DeletedFolderNotListed | SnailStorage.py:198-204 | After a successful delete and rescan, no displayed result is the deleted folder. |
| Session.RestartOmitsRemoved | SnailStorage.py:202-204 | A successful start after removing a folder lists no entry for that folder, whatever the mountpoint. |
| Session.ScanAfterRemove | SnailStorage.py:202-204 | Rescanning a directory after removing one of its children lists no entry for that child. |
| Session.FailedStartLeavesViewOutsideRoot | SnailStorage.py:119-124 | Take a filesystem with a data volume and an unreadable volume. Start on data, fail to start on the unreadable volume, then open a still-displayed folder that has a subfolder. As written, the viewed directory ends up outside the root, Back is offered, and pressing it raises `PermissionError` on the unreadable volume. |
| FileTree.LookupAfterRemove | SnailStorage.py:202 | After removing `p/x`, the directory at `p` is the same directory without its children named `x`. |
| FileTree.Remove | SnailStorage.py:202 | Removal keeps the top directory's name and whether it can be listed. A tree that is not a listable directory has nothing to remove and is unchanged. |
| FileTree.BytesAfterRemove | SnailStorage.py:202 | Removing `p/x` lowers the disk usage of the whole tree by exactly the disk usage of the removed children of `p`. No other file's bytes are lost. |
| FileTree.LookupElsewhere | SnailStorage.py:202 | Every path that neither leads to `p` nor lies inside `p/x` names the same node before and after the removal. |
| FileTree.IsRealDir | SnailStorage.py:132 | `is_dir(follow_symlinks=False)` agrees with the `is_dir()` that `os.walk` uses on every entry except symbolic links, for which it is false. |
| FileTree.FileBytes | SnailStorage.py:144-145 | A regular file adds its size, and a link to a regular file adds its target's size. Nothing else adds bytes, and an entry `os.walk` files as a directory adds nothing. |
| FileTree.Listing | SnailStorage.py:131 | `os.scandir` lists a searchable directory's children as they are, and one entry per child, with the child's name and kind, for any listable directory. Below a directory that cannot be searched every listed entry has disk usage 0 and cannot be listed itself. |
| SizeFormat.FormatFrom | SnailStorage.py:209-213 | From iteration `i`, the loop returns a unit of rank at least `i` whose range holds the size, and the value is the size over 1024 to that rank. |
| SizeFormat.FormatSize | SnailStorage.py:208-213 | For unit rank k, the value shown is size / 1024^k. If k > 0 then 1024^k ≤ size, and if k < 5 then size < 1024^(k+1). |
| SizeFormat.ShownValueBounds | SnailStorage.py:209-212 | The shown value is below 1024 in every unit except PB, and at least 1 in every unit except B. |
| SizeFormat.FormatUnitIff | SnailStorage.py:208-213 | The unit is the k-th of B to TB exactly when 1024^k ≤ size < 1024^(k+1) (no lower bound for B). It is PB exactly when size ≥ 1024^5, with no upper bound. |
| SizeFormat.FormatExamples | SnailStorage.py:208-213 | 0 shows as 0 B. 1024 shows as 1 KB and 1536 as 1.5 KB. 1024^5 shows as 1 PB and 1024^6 as 1024 PB. |

## Left out

- Tkinter widgets, theming, tabs and button wiring (SnailStorage.py:8-75, 151-184) are UI. Only their effect on the session is modelled: which buttons exist and which state field each one changes.
- The volume listing through `psutil` (SnailStorage.py:90-103, 109-110) is an operating-system call that uses floating-point percentages. The device labels and mountpoints arrive as inputs (`DeviceChoice`).
- "Run as admin" (SnailStorage.py:77-88) is platform glue.
- Message boxes are not modelled. The delete confirmation is a boolean input. The info and error dialogs appear only as the `DeleteReport` value.
- `shutil.rmtree` is modelled as all-or-nothing. Whether it succeeded is an input, and success removes the subtree. Partial deletion on error is not modelled.
- Sizes on disk are exact. The `print` progress output and the `.2f` rendering of the value are not modelled. Python converts the size to a float, which loses precision above 2^53 bytes.
- The filesystem is an immutable snapshot. Entries that change or vanish during a scan, and races with other processes, are not modelled.
- Lookup does not follow links. If the scanned path is itself a link to a directory, the program's `os.scandir` would follow it, but the model reports `LinkedDirectory`, because a link's target is not part of the tree. Drill-in never reaches this case: it opens real directories only. Only a mountpoint that is a link would.
- A path below a directory that cannot be listed is reported as `NotFound`. An operating system can still resolve such a path when the directory can be searched but not listed.
- A path below a directory that can be listed but not searched is also reported as `NotFound`, where `os.scandir` raises `PermissionError`. The scan fails in both cases; only the error kind differs.
- `Remove` drops a child of a directory that cannot be searched when told the removal succeeded. A real `rmtree` cannot reach such a child, so that input does not arise in practice.
- Errors from `DirEntry.is_dir()` inside `os.walk` are not modelled.
- Entry names within a directory are assumed unique, as on a real filesystem. With duplicate names, lookup takes the first match and removal drops every match.
- Before the first scan the session attributes do not exist. The model starts from `Initial`: empty paths, no results and no selection. The results tab renders that state the same way.
- An exception escaping a button handler is reported by Tk, and the application carries on. The model records it in `Step.raised`.
- The Back button is drawn from the state at the last render. `Session.Apply` lets Back be pressed at any time, which over-approximates the UI for the invariants.

## Findings

| source | as written | input that shows it | evidently intended | confidence | as-written member | corrected member |
|---|---|---|---|---|---|---|
| SnailStorage.py:119-124 | `_start_scan` assigns `root_scan_path` and `current_scan_path` before calling `_scan_folders`. A raising scan therefore leaves the new root together with the previous session's results and selection. | Start on a readable volume `data` that has a folder `x` holding a folder `y`. Then start on an unreadable volume `mnt`, which raises `PermissionError`. Then click the still-displayed `data/x` and "Scan This Folder". Root is now `mnt` and the viewed path is `data/x`, outside it. `data/x` holds a folder `y`, so the results tab shows `y` and a Back button, and Back rescans `mnt` and raises again. | A failed start should leave the session as it was. The viewed directory should always be at or below the root. | medium; not executed | Navigation.StartScan, Session.FailedStartLeavesViewOutsideRoot | Navigation.StartScanFixed, Session.RunCorrectedKeepsWithinRoot |

=== FILE: folder_size.dfy ===
/**
 * `_get_folder_size`: the recursive byte count of one directory, computed
 * the way the program does it, by summing over the `filenames` of every
 * level that a top-down `os.walk` visits.
 */
module FolderSize {
  import opened FileTree

  /** The `filenames` list of one directory level. */
  function FileNames(cs: seq<Node>): (r: seq<Node>)
    ensures forall c :: c in r ==> c in cs && !IsWalkDir(c)
  {
    if cs == [] then []
    else if IsWalkDir(cs[0]) then FileNames(cs[1..])
    else [cs[0]] + FileNames(cs[1..])
  }

  /**
   * The `filenames` lists `os.walk(folder, onerror=lambda e: None)` yields,
   * in order: the directory's own level first, then each subdirectory's
   * walk in listing order. A directory that cannot be listed reports its
   * error to `onerror` and yields nothing. A directory that can be listed
   * but not searched yields its own level, whose names all fail
   * `os.path.isfile`, and nothing below it, since none of its
   * subdirectories can be listed.
   */
  function Walk(n: Node): (r: seq<seq<Node>>)
    ensures r != [] <==> Listable(n)
    ensures forall i :: 0 <= i < |r| ==> forall f :: f in r[i] ==> !IsWalkDir(f)
  {
    match n
    case Dir(_, cs) => [FileNames(cs)] + WalkChildren(cs)
    case Unsearchable(_, cs) => [FileNames(Blinded(cs))]
    case _ => []
  }

  /** The walks of the subdirectories, in listing order. With
      `followlinks=False` only real directories are entered: a link to a
      directory is listed among `dirnames` but never walked. */
  function WalkChildren(cs: seq<Node>): (r: seq<seq<Node>>)
    ensures forall i :: 0 <= i < |r| ==> forall f :: f in r[i] ==> !IsWalkDir(f)
  {
    if cs == [] then []
    else (if IsRealDir(cs[0]) then Walk(cs[0]) else []) + WalkChildren(cs[1..])
  }

  /** The total the inner loop adds for one level. */
  function SumFiles(fs: seq<Node>): nat
  {
    if fs == [] then 0 else SumFiles(fs[..|fs| - 1]) + FileBytes(fs[|fs| - 1])
  }

  /** The total the outer loop adds for a sequence of levels. */
  function SumLevels(ls: seq<seq<Node>>): nat
  {
    if ls == [] then 0 else SumLevels(ls[..|ls| - 1]) + SumFiles(ls[|ls| - 1])
  }

  lemma {:induction false} SumFilesAppend(a: seq<Node>, b: seq<Node>)
    ensures SumFiles(a + b) == SumFiles(a) + SumFiles(b)
    decreases |b|
  {
    if b == [] {
      assert a + b == a;
    } else {
      assert (a + b)[..|a + b| - 1] == a + b[..|b| - 1];
      SumFilesAppend(a, b[..|b| - 1]);
    }
  }

  lemma {:induction false} SumLevelsAppend(a: seq<seq<Node>>, b: seq<seq<Node>>)
    ensures SumLevels(a + b) == SumLevels(a) + SumLevels(b)
    decreases |b|
  {
    if b == [] {
      assert a + b == a;
    } else {
      assert (a + b)[..|a + b| - 1] == a + b[..|b| - 1];
      SumLevelsAppend(a, b[..|b| - 1]);
    }
  }

  lemma {:induction false} SumFilesZero(fs: seq<Node>)
    requires forall i :: 0 <= i < |fs| ==> FileBytes(fs[i]) == 0
    ensures SumFiles(fs) == 0
    decreases |fs|
  {
    if fs != [] {
      SumFilesZero(fs[..|fs| - 1]);
    }
  }

  /** The walk's total for a directory is the disk usage of the subtree. */
  lemma {:induction false} WalkTotal(n: Node)
    ensures SumLevels(Walk(n)) == (if IsRealDir(n) then Bytes(n) else 0)
    decreases n, 1
  {
    match n
    case Dir(_, cs) =>
      SumLevelsAppend([FileNames(cs)], WalkChildren(cs));
      assert SumLevels([FileNames(cs)]) == SumFiles(FileNames(cs)) by {
        assert [FileNames(cs)][..0] == [];
      }
      LevelTotal(cs);
    case Unsearchable(_, cs) =>
      assert [FileNames(Blinded(cs))][..0] == [];
      SumFilesZero(FileNames(Blinded(cs)));
    case _ =>
  }

  /** For one listing, the files counted at this level plus the walks of the
      subdirectories descended into add up to the children's disk usage. */
  lemma {:induction false} LevelTotal(cs: seq<Node>)
    ensures SumFiles(FileNames(cs)) + SumLevels(WalkChildren(cs)) == BytesAll(cs)
    decreases cs, 0
  {
    if cs != [] {
      var c := cs[0];
      LevelTotal(cs[1..]);
      WalkTotal(c);
      var w := if IsRealDir(c) then Walk(c) else [];
      SumLevelsAppend(w, WalkChildren(cs[1..]));
      if IsWalkDir(c) {
        assert FileNames(cs) == FileNames(cs[1..]);
      } else {
        assert FileNames(cs) == [c] + FileNames(cs[1..]);
        SumFilesAppend([c], FileNames(cs[1..]));
        assert SumFiles([c]) == FileBytes(c) by {
          assert [c][..0] == [];
        }
      }
    }
  }

  /**
   * The program's nested loop over the walk: for every level, for every
   * name in `filenames`, add the size if it is a regular file. Its result is
   * the disk usage of the subtree; it never fails.
   */
  method GetFolderSize(folder: Node) returns (total: nat)
    requires IsRealDir(folder)
    ensures total == Bytes(folder)
  {
    var levels := Walk(folder);
    total := 0;
    var i := 0;
    while i < |levels|
      invariant 0 <= i <= |levels|
      invariant total == SumLevels(levels[..i])
    {
      var names := levels[i];
      var j := 0;
      while j < |names|
        invariant 0 <= j <= |names|
        invariant total == SumLevels(levels[..i]) + SumFiles(names[..j])
      {
        total := total + FileBytes(names[j]);
        assert names[..j + 1][..j] == names[..j];
        j := j + 1;
      }
      assert names[..j] == names;
      assert levels[..i + 1][..i] == levels[..i];
      i := i + 1;
    }
    assert levels[..i] == levels;
    WalkTotal(folder);
  }
}

=== FILE: navigation.dfy ===
/**
 * The scan session kept on the application object (`root_scan_path`,
 * `current_scan_path`, `scan_results`, `selected_folder`) and the effect of
 * each user action on it. Each transition is modelled as the program writes
 * it: attributes assigned before a scan that raises keep their new value,
 * and the attributes assigned after it keep their old one.
 */
module Navigation {
  import opened Wrappers
  import opened FileTree
  import opened Scanner

  /** The session state. */
  datatype Nav = Nav(root: Path, current: Path, results: seq<Entry>, selected: Option<Entry>)

  /** Before the first scan the attributes do not exist; the results tab then
      shows no results and no Back button, as it does for this state. */
  const Initial := Nav([], [], [], None)

  /** The device dropdown: the labels, the mountpoints (read by a second,
      separate listing of the partitions) and the label currently selected. */
  datatype DeviceChoice = DeviceChoice(labels: seq<string>, mounts: seq<Path>, selected: string)

  /** An exception that escapes a transition. */
  datatype NavError =
    | UnknownDevice            // `list.index` finds no such label
    | NoMountpoint             // the mountpoint list is shorter than the label list
    | ScanFailed(cause: ScanError)

  /** The state after a transition, and the exception it raised, if any. */
  datatype Step = Step(state: Nav, raised: Option<NavError>)

  /** The position of the first occurrence of `x`, as `list.index` finds it. */
  function IndexOf(xs: seq<string>, x: string): (r: Option<nat>)
    ensures r.Some? ==> r.value < |xs| && xs[r.value] == x
    ensures r.Some? ==> forall j :: 0 <= j < r.value ==> xs[j] != x
    ensures r.None? ==> x !in xs
  {
    if xs == [] then None
    else if xs[0] == x then Some(0)
    else match IndexOf(xs[1..], x)
      case None => None
      case Some(i) => Some(i + 1)
  }

  /** The mountpoint of the selected device. */
  function MountFor(c: DeviceChoice): (r: Result<Path, NavError>)
    ensures r.Ok? <==> c.selected in c.labels && IndexOf(c.labels, c.selected).value < |c.mounts|
    ensures r.Ok? ==> exists i :: 0 <= i < |c.labels| && i < |c.mounts| && c.labels[i] == c.selected && r.value == c.mounts[i]
                          && forall j :: 0 <= j < i ==> c.labels[j] != c.selected
  {
    match IndexOf(c.labels, c.selected)
    case None => Err(UnknownDevice)
    case Some(i) => if i < |c.mounts| then Ok(c.mounts[i]) else Err(NoMountpoint)
  }

  /** The selection is empty or one of the displayed results. */
  predicate SelectionValid(s: Nav)
  {
    s.selected.None? || s.selected.value in s.results
  }

  /** The results tab shows a Back button exactly when there are results to
      show and the viewed directory is not the scan root: with no results it
      shows "No scan results yet." and nothing else. */
  predicate BackOffered(s: Nav)
    ensures BackOffered(s) ==> s.results != []
  {
    s.results != [] && s.current != s.root
  }

  /** The results are a fresh scan of the viewed directory, which lies at or
      below the root, and the selection is one of them. */
  ghost predicate Coherent(fs: Node, s: Nav)
  {
    s.root <= s.current && Scan(fs, s.current) == Ok(s.results) && SelectionValid(s)
  }

  /**
   * `_start_scan`: look up the mountpoint of the selected device, make it
   * both the root and the viewed directory, then scan it and clear the
   * selection. A failed lookup changes nothing; a failed scan has already
   * moved root and viewed directory but keeps the old results and selection.
   */
  function StartScan(fs: Node, c: DeviceChoice, s: Nav): (r: Step)
    ensures r.raised.None? <==> MountFor(c).Ok? && Scan(fs, MountFor(c).value).Ok?
    ensures r.raised.None? ==> Coherent(fs, r.state) && !BackOffered(r.state) && r.state.selected.None?
    ensures MountFor(c).Ok? ==> r.state.root == MountFor(c).value && r.state.current == MountFor(c).value
    ensures MountFor(c).Err? ==> r == Step(s, Some(MountFor(c).error))
    ensures r.raised.Some? ==> r.state.results == s.results && r.state.selected == s.selected
  {
    match MountFor(c)
    case Err(e) => Step(s, Some(e))
    case Ok(mount) =>
      var moved := s.(root := mount, current := mount);
      match Scan(fs, mount)
      case Err(e) => Step(moved, Some(ScanFailed(e)))
      case Ok(rs) => Step(moved.(results := rs, selected := None), None)
  }

  /** `_start_scan` with the scan done before any attribute is assigned, so
      that a failure leaves the whole session as it was. */
  function StartScanFixed(fs: Node, c: DeviceChoice, s: Nav): (r: Step)
    ensures r.raised.None? <==> MountFor(c).Ok? && Scan(fs, MountFor(c).value).Ok?
    ensures r.raised.None? ==> Coherent(fs, r.state) && !BackOffered(r.state) && r.state.selected.None?
    ensures r.raised.None? ==> r.state.root == MountFor(c).value && r.state.current == MountFor(c).value
    ensures r.raised.Some? ==> r.state == s
  {
    match MountFor(c)
    case Err(e) => Step(s, Some(e))
    case Ok(mount) =>
      match Scan(fs, mount)
      case Err(e) => Step(s, Some(ScanFailed(e)))
      case Ok(rs) => Step(Nav(mount, mount, rs, None), None)
  }

  /**
   * `_scan_selected_folder`: view the chosen folder and rescan. The root
   * never changes; the viewed path is assigned before the scan, so it
   * changes even when the scan raises, while results and selection do not.
   */
  function DrillIn(fs: Node, s: Nav, folderPath: Path): (r: Step)
    ensures r.state.root == s.root && r.state.current == folderPath
    ensures r.raised.None? <==> Scan(fs, folderPath).Ok?
    ensures r.raised.None? ==> Scan(fs, r.state.current) == Ok(r.state.results) && r.state.selected.None?
    ensures r.raised.Some? ==> r.state.results == s.results && r.state.selected == s.selected
  {
    var moved := s.(current := folderPath);
    match Scan(fs, folderPath)
    case Err(e) => Step(moved, Some(ScanFailed(e)))
    case Ok(rs) => Step(moved.(results := rs, selected := None), None)
  }

  /** `_back_to_root`: view the root again with a fresh scan of it. */
  function BackToRoot(fs: Node, s: Nav): (r: Step)
    ensures r.state.root == s.root && r.state.current == s.root && !BackOffered(r.state)
    ensures r.raised.None? <==> Scan(fs, s.root).Ok?
    ensures r.raised.None? ==> Coherent(fs, r.state) && r.state.selected.None?
    ensures r.raised.Some? ==> r.state.results == s.results && r.state.selected == s.selected
  {
    var moved := s.(current := s.root);
    match Scan(fs, s.root)
    case Err(e) => Step(moved, Some(ScanFailed(e)))
    case Ok(rs) => Step(moved.(results := rs, selected := None), None)
  }

  /** `_show_folder_details`: the clicked result becomes the selection and
      nothing else changes. */
  function Select(s: Nav, e: Entry): (r: Nav)
    requires e in s.results
    ensures SelectionValid(r) && r.selected == Some(e)
    ensures r.root == s.root && r.current == s.current && r.results == s.results
  {
    s.(selected := Some(e))
  }

  /** Which version of `_start_scan` a session runs. */
  datatype StartVariant = AsWritten | Corrected

  function Start(v: StartVariant, fs: Node, c: DeviceChoice, s: Nav): Step
  {
    match v
    case AsWritten => StartScan(fs, c, s)
    case Corrected => StartScanFixed(fs, c, s)
  }

  /** What the user is told after pressing Delete. */
  datatype DeleteReport =
    | Cancelled                              // the confirmation was declined
    | RemoveFailed                           // `rmtree` raised: error dialog
    | DeletedAndRescanned                    // removed ("Folder deleted" shown),
                                             // then rescanned
    | DeletedRescanFailed(cause: NavError)   // removed ("Folder deleted" shown),
                                             // but the rescan raised
                                             // inside the same `try`: the
                                             // error dialog says the delete failed

  datatype DeleteStep = DeleteStep(fs: Node, state: Nav, report: DeleteReport)

  /**
   * `_delete_folder`: after confirmation, remove the folder's subtree and,
   * if that succeeded, start a whole new session on the device selected in
   * the dropdown, whatever directory was being viewed. `confirmed` is the
   * user's answer and `removed` whether `rmtree` succeeded.
   */
  function DeleteFolder(v: StartVariant, fs: Node, s: Nav, folder: Entry, confirmed: bool,
                        removed: bool, c: DeviceChoice): (r: DeleteStep)
    ensures !confirmed ==> r == DeleteStep(fs, s, Cancelled)
    ensures confirmed && !removed ==> r == DeleteStep(fs, s, RemoveFailed)
    ensures confirmed && removed ==> r.fs == Remove(fs, folder.path) && r.state == Start(v, r.fs, c, s).state
    ensures r.report == DeletedAndRescanned <==> confirmed && removed && Start(v, r.fs, c, s).raised.None?
    ensures confirmed && removed && Start(v, r.fs, c, s).raised.Some? ==>
      r.report == DeletedRescanFailed(Start(v, r.fs, c, s).raised.value)
  {
    if !confirmed then DeleteStep(fs, s, Cancelled)
    else if !removed then DeleteStep(fs, s, RemoveFailed)
    else
      var after := Remove(fs, folder.path);
      var st := Start(v, after, c, s);
      match st.raised
      case None => DeleteStep(after, st.state, DeletedAndRescanned)
      case Some(e) => DeleteStep(after, st.state, DeletedRescanFailed(e))
  }
}

=== FILE: scanner.dfy ===
/**
 * `_scan_folders`: list one directory, keep its real subdirectories, measure
 * each with `_get_folder_size`, and sort the entries by size, largest first.
 */
module Scanner {
  import opened Wrappers
  import opened FileTree
  import FolderSize
  import Sorting

  /** One row of the scan results: a subdirectory and its disk usage. */
  datatype Entry = Entry(path: Path, size: nat)

  /** Why `os.scandir` could not list the scanned directory itself. */
  datatype ScanError =
    | NotFound          // nothing at that path, or a link to nothing
    | NotADirectory     // a file, special file or link to one
    | PermissionDenied  // a directory that cannot be listed
    | LinkedDirectory   // a link to a directory, whose target is not modelled

  function SizeOf(e: Entry): nat
  {
    e.size
  }

  /** The entry the scan records for child `c` of the directory at `p`. */
  function EntryFor(p: Path, c: Node): Entry
  {
    Entry(p + [c.name], Bytes(c))
  }

  /** Positions of the children that are real subdirectories. */
  function RealDirIndices(cs: seq<Node>): set<nat>
  {
    set i: nat | i < |cs| && IsRealDir(cs[i])
  }

  lemma RealDirIndicesSnoc(cs: seq<Node>)
    requires cs != []
    ensures var n := |cs| - 1;
      RealDirIndices(cs) == RealDirIndices(cs[..n]) + (if IsRealDir(cs[n]) then {n} else {})
  {
  }

  /**
   * The list the scan loop builds before sorting: in listing order, one
   * entry for each child that is a directory and not a link, holding the
   * child's disk usage; files, special files and links of every kind give
   * no entry.
   */
  function ListEntries(p: Path, cs: seq<Node>): (r: seq<Entry>)
    ensures forall e :: e in r <==> exists i :: 0 <= i < |cs| && IsRealDir(cs[i]) && e == EntryFor(p, cs[i])
    ensures |r| == |RealDirIndices(cs)|
  {
    if cs == [] then []
    else
      var n := |cs| - 1;
      RealDirIndicesSnoc(cs);
      ListEntries(p, cs[..n]) + (if IsRealDir(cs[n]) then [EntryFor(p, cs[n])] else [])
  }

  /** What scanning the directory at `p` yields: the error `os.scandir`
      raises, or the listed entries in stable descending order of size. */
  function Scan(fs: Node, p: Path): (r: Result<seq<Entry>, ScanError>)
    ensures r.Ok? <==> Lookup(fs, p).Some? && Listable(Lookup(fs, p).value)
    ensures r.Ok? ==> Sorting.Descending(r.value, SizeOf)
    ensures r.Ok? ==> forall e :: e in r.value ==> |e.path| == |p| + 1 && e.path[..|p|] == p
    ensures r.Ok? && Lookup(fs, p).value.Unsearchable? ==> forall e :: e in r.value ==> e.size == 0
    ensures r == Err(PermissionDenied) <==> Lookup(fs, p).Some? && Lookup(fs, p).value.Unreadable?
    ensures r == Err(NotFound) <==>
      Lookup(fs, p).None? || (Lookup(fs, p).value.Link? && Lookup(fs, p).value.target.Dangling?)
  {
    match Lookup(fs, p)
    case None => Err(NotFound)
    case Some(n) =>
      if Listable(n) then
        var listed := ListEntries(p, Listing(n));
        Sorting.SortKeepsElements(listed, SizeOf);
        Ok(Sorting.SortDescending(listed, SizeOf))
      else if n.Unreadable? then Err(PermissionDenied)
      else if n.Link? && n.target.ToDir? then Err(LinkedDirectory)
      else if n.Link? && n.target.Dangling? then Err(NotFound)
      else Err(NotADirectory)
  }

  /**
   * The program's loop: for each listed child that is a directory and not a
   * link, measure it and append an entry, then sort descending by size.
   * Only a failure to list the directory itself is reported.
   */
  method ScanFolders(fs: Node, rootPath: Path) returns (r: Result<seq<Entry>, ScanError>)
    ensures r == Scan(fs, rootPath)
  {
    var dir := Lookup(fs, rootPath);
    match dir {
      case None => return Err(NotFound);
      case Some(Unreadable(_)) => return Err(PermissionDenied);
      case Some(Link(_, ToDir)) => return Err(LinkedDirectory);
      case Some(Link(_, Dangling)) => return Err(NotFound);
      case Some(File(_, _)) => return Err(NotADirectory);
      case Some(Special(_)) => return Err(NotADirectory);
      case Some(Link(_, _)) => return Err(NotADirectory);
      case Some(Dir(_, _)) =>
      case Some(Unsearchable(_, _)) =>
    }
    var cs := Listing(dir.value);
    var folderSizes: seq<Entry> := [];
    for i := 0 to |cs|
      invariant folderSizes == ListEntries(rootPath, cs[..i])
    {
      assert cs[..i + 1][..i] == cs[..i];
      if IsRealDir(cs[i]) {
        var size := FolderSize.GetFolderSize(cs[i]);
        folderSizes := folderSizes + [Entry(rootPath + [cs[i].name], size)];
      }
    }
    assert cs[..|cs|] == cs;
    r := Ok(Sorting.SortDescending(folderSizes, SizeOf));
  }

  /**
   * A successful scan of the directory at `p` holds exactly one entry per
   * listed child that is a directory and not a link, each with that child's
   * disk usage as the listing reaches it (nothing, below a directory that
   * cannot be searched), and orders them as a stable descending sort of the
   * listing: sizes never increase and entries of equal size keep their
   * listing order.
   */
  lemma ScanContents(fs: Node, p: Path)
    requires Lookup(fs, p).Some? && Listable(Lookup(fs, p).value)
    ensures var cs := Listing(Lookup(fs, p).value);
      && Scan(fs, p).Ok?
      && (forall e :: e in Scan(fs, p).value <==>
            exists i :: 0 <= i < |cs| && IsRealDir(cs[i]) && e == EntryFor(p, cs[i]))
      && |Scan(fs, p).value| == |RealDirIndices(cs)|
      && Sorting.StableDescendingSortOf(Scan(fs, p).value, ListEntries(p, cs), SizeOf)
  {
    var n := Lookup(fs, p).value;
    var cs := Listing(n);
    var listed := ListEntries(p, cs);
    var r := Scan(fs, p).value;
    assert r == Sorting.SortDescending(listed, SizeOf);
    Sorting.SortKeepsElements(listed, SizeOf);
    Sorting.SortDescendingIsStableSort(listed, SizeOf);
  }

  /** A directory whose children are all files or links scans to no entries,
      and the scan is non-empty as soon as one child is a real directory. */
  lemma ScanEmptyIffNoSubdirectories(fs: Node, p: Path)
    requires Lookup(fs, p).Some? && Listable(Lookup(fs, p).value)
    ensures var cs := Lookup(fs, p).value.children;
      Scan(fs, p) == Ok([]) <==> forall i :: 0 <= i < |cs| ==> !IsRealDir(cs[i])
  {
    var cs := Listing(Lookup(fs, p).value);
    var listed := ListEntries(p, cs);
    if exists i :: 0 <= i < |cs| && IsRealDir(cs[i]) {
      var i :| 0 <= i < |cs| && IsRealDir(cs[i]);
      assert EntryFor(p, cs[i]) in listed;
      assert EntryFor(p, cs[i]) in multiset(Scan(fs, p).value);
    } else {
      assert RealDirIndices(cs) == {};
    }
  }

  /**
   * A fixture tree with every kind of entry. Volume `a` holds a file of 3
   * bytes, a link to a file of 4 bytes, a dangling link, a special file, a
   * link to a directory, a subdirectory with a file of 5 bytes, a directory
   * that can be listed but not searched, and one that cannot be listed;
   * `c` holds a file of 12 bytes.
   */
  const FixtureA := Dir("a", [File("f", 3), Link("l", ToFile(4)), Link("dl", Dangling), Special("s"),
                              Link("ld", ToDir), Dir("b", [File("g", 5)]),
                              Unsearchable("u", [File("h", 7), Dir("v", [File("w", 9)])]),
                              Unreadable("r")])
  const FixtureC := Dir("c", [File("z", 12)])
  const Fixture := Dir("", [FixtureA, FixtureC, Link("e", ToDir), File("top", 100)])

  /** Only the file, the link to a file and the file below the searchable
      subdirectory count towards `a`. */
  lemma FixtureSizes()
    ensures Bytes(FixtureA) == 12 && Bytes(FixtureC) == 12
  {
    var cs := FixtureA.children;
    assert BytesAll(cs[7..]) == 0 by {
      assert cs[7..][1..] == [];
    }
    assert BytesAll(cs[6..]) == 0 by {
      assert cs[6..][1..] == cs[7..];
    }
    assert BytesAll(cs[5..]) == 5 by {
      var b := Dir("b", [File("g", 5)]);
      assert Bytes(b) == 5 by {
        assert b.children[1..] == [];
      }
      assert cs[5..][1..] == cs[6..];
    }
    assert BytesAll(cs[4..]) == 5 by { assert cs[4..][1..] == cs[5..]; }
    assert BytesAll(cs[3..]) == 5 by { assert cs[3..][1..] == cs[4..]; }
    assert BytesAll(cs[2..]) == 5 by { assert cs[2..][1..] == cs[3..]; }
    assert BytesAll(cs[1..]) == 9 by { assert cs[1..][1..] == cs[2..]; }
    assert FixtureC.children[1..] == [];
  }

  /** The fixture root's unsorted entries: its two real directories. */
  lemma FixtureListed()
    ensures ListEntries([], Fixture.children) == [Entry(["a"], 12), Entry(["c"], 12)]
  {
    FixtureSizes();
    var cs := Fixture.children;
    var ea := Entry(["a"], 12);
    var ec := Entry(["c"], 12);
    assert EntryFor([], FixtureA) == ea;
    assert EntryFor([], FixtureC) == ec;
    assert [FixtureA, FixtureC][..1] == [FixtureA];
    assert [FixtureA][..0] == [];
    assert ListEntries([], [FixtureA]) == [ea];
    assert ListEntries([], [FixtureA, FixtureC]) == [ea, ec];
    assert cs[..3][..2] == [FixtureA, FixtureC];
    assert ListEntries([], cs[..3]) == [ea, ec];
    assert cs[..|cs| - 1] == cs[..3];
  }

  /** Two entries of equal size stay in listing order. */
  lemma FixtureSorted()
    ensures Sorting.SortDescending([Entry(["a"], 12), Entry(["c"], 12)], SizeOf)
         == [Entry(["a"], 12), Entry(["c"], 12)]
  {
    var ea := Entry(["a"], 12);
    var ec := Entry(["c"], 12);
    assert [ea, ec][1..] == [ec];
    assert [ec][1..] == [];
    assert Sorting.SortDescending([ec], SizeOf) == Sorting.Insert(ec, [], SizeOf) == [ec];
    assert Sorting.SortDescending([ea, ec], SizeOf) == Sorting.Insert(ea, [ec], SizeOf);
  }

  /**
   * Scanning the fixture's root lists exactly its two real directories, with
   * their sizes; they are equal, so they keep their listing order.
   */
  lemma FixtureScan()
    ensures Scan(Fixture, []) == Ok([Entry(["a"], 12), Entry(["c"], 12)])
  {
    assert Lookup(Fixture, []) == Some(Fixture);
    FixtureListed();
    FixtureSorted();
  }
}

=== FILE: session.dfy ===
/**
 * A whole session: the filesystem together with the navigation state, driven
 * by the buttons of the results tab. The properties here hold after any
 * sequence of button presses.
 */
module Session {
  import opened Wrappers
  import opened FileTree
  import opened Scanner
  import opened Navigation

  datatype World = World(fs: Node, nav: Nav)

  /**
   * The buttons. A folder button exists for each displayed result; the
   * "Scan This Folder" and "Delete" buttons act on the folder whose details
   * are shown, which is the selection. A press on a button that is not
   * displayed does nothing.
   */
  datatype Action =
    | PressStart(choice: DeviceChoice)
    | PickFolder(entry: Entry)
    | ScanThisFolder
    | PressBack
    | PressDelete(confirmed: bool, removed: bool, choice: DeviceChoice)

  function Apply(v: StartVariant, w: World, a: Action): (r: World)
    ensures r.fs != w.fs ==> a.PressDelete? && w.nav.selected.Some?
    ensures r.nav.root != w.nav.root ==> a.PressStart? || a.PressDelete?
    ensures a.PickFolder? && a.entry !in w.nav.results ==> r == w
  {
    match a
    case PressStart(c) => World(w.fs, Start(v, w.fs, c, w.nav).state)
    case PickFolder(e) => if e in w.nav.results then World(w.fs, Select(w.nav, e)) else w
    case ScanThisFolder =>
      if w.nav.selected.Some? then World(w.fs, DrillIn(w.fs, w.nav, w.nav.selected.value.path).state) else w
    case PressBack => World(w.fs, BackToRoot(w.fs, w.nav).state)
    case PressDelete(yes, ok, c) =>
      if w.nav.selected.Some? then
        var d := DeleteFolder(v, w.fs, w.nav, w.nav.selected.value, yes, ok, c);
        World(d.fs, d.state)
      else w
  }

  function Run(v: StartVariant, w: World, acts: seq<Action>): World
    decreases |acts|
  {
    if acts == [] then w else Run(v, Apply(v, w, acts[0]), acts[1..])
  }

  /** Every transition, succeeding or raising, keeps the selection among the
      displayed results. */
  lemma ApplyKeepsSelectionValid(v: StartVariant, w: World, a: Action)
    requires SelectionValid(w.nav)
    ensures SelectionValid(Apply(v, w, a).nav)
  {
  }

  lemma {:induction false} RunKeepsSelectionValid(v: StartVariant, w: World, acts: seq<Action>)
    requires SelectionValid(w.nav)
    ensures SelectionValid(Run(v, w, acts).nav)
    decreases |acts|
  {
    if acts != [] {
      ApplyKeepsSelectionValid(v, w, acts[0]);
      RunKeepsSelectionValid(v, Apply(v, w, acts[0]), acts[1..]);
    }
  }

  /** The viewed directory and every displayed result lie at or below the
      root, and the selection is one of the results. */
  ghost predicate WithinRoot(s: Nav)
  {
    && s.root <= s.current
    && (forall e :: e in s.results ==> s.root <= e.path)
    && SelectionValid(s)
  }

  /** With the corrected start every transition keeps the session within
      its root. */
  lemma ApplyCorrectedKeepsWithinRoot(w: World, a: Action)
    requires WithinRoot(w.nav)
    ensures WithinRoot(Apply(Corrected, w, a).nav)
  {
  }

  lemma {:induction false} RunCorrectedKeepsWithinRoot(w: World, acts: seq<Action>)
    requires WithinRoot(w.nav)
    ensures WithinRoot(Run(Corrected, w, acts).nav)
    decreases |acts|
  {
    if acts != [] {
      ApplyCorrectedKeepsWithinRoot(w, acts[0]);
      RunCorrectedKeepsWithinRoot(Apply(Corrected, w, acts[0]), acts[1..]);
    }
  }

  /** Opening a displayed folder from a coherent session whose scan succeeds
      gives a coherent session one level deeper. It offers Back exactly when
      the folder has subfolders to show; otherwise only a new start leaves
      it. */
  lemma DrillInKeepsCoherent(fs: Node, s: Nav, e: Entry)
    requires Coherent(fs, s) && e in s.results
    requires DrillIn(fs, s, e.path).raised.None?
    ensures Coherent(fs, DrillIn(fs, s, e.path).state)
    ensures BackOffered(DrillIn(fs, s, e.path).state) <==> DrillIn(fs, s, e.path).state.results != []
    ensures |DrillIn(fs, s, e.path).state.current| == |s.current| + 1
  {
  }

  /** Drilling into any folder and pressing Back yields exactly the state a
      fresh start on the root yields, whether or not the drill-in scan
      succeeded and whatever the state was before. */
  lemma DrillInThenBack(fs: Node, s: Nav, folderPath: Path, c: DeviceChoice, t: Nav)
    requires MountFor(c) == Ok(s.root) && Scan(fs, s.root).Ok?
    ensures BackToRoot(fs, DrillIn(fs, s, folderPath).state) == StartScan(fs, c, t)
  {
  }

  /** Rescanning a directory after removing its child `x` lists no entry
      for `x`. */
  lemma ScanAfterRemove(fs: Node, m: Path, x: string)
    ensures Scan(Remove(fs, m + [x]), m).Ok? ==>
      forall e :: e in Scan(Remove(fs, m + [x]), m).value ==> e.path != m + [x]
  {
    if Scan(Remove(fs, m + [x]), m).Ok? {
      LookupAfterRemove(fs, m, x);
      ScanContents(Remove(fs, m + [x]), m);
    }
  }

  /** After a successful delete and rescan, no displayed result is the
      deleted folder, wherever the new session's root is. */
  lemma DeletedFolderNotListed(v: StartVariant, fs: Node, s: Nav, folder: Entry, c: DeviceChoice)
    requires DeleteFolder(v, fs, s, folder, true, true, c).report == DeletedAndRescanned
    ensures forall e :: e in DeleteFolder(v, fs, s, folder, true, true, c).state.results ==> e.path != folder.path
  {
    var d := DeleteFolder(v, fs, s, folder, true, true, c);
    assert d.fs == Remove(fs, folder.path) && d.state == Start(v, d.fs, c, s).state;
    RestartOmitsRemoved(v, fs, folder.path, c, s);
  }

  /** A successful start after removing `path` lists no entry for `path`. */
  lemma RestartOmitsRemoved(v: StartVariant, fs: Node, path: Path, c: DeviceChoice, s: Nav)
    ensures Start(v, Remove(fs, path), c, s).raised.None? ==>
      forall e :: e in Start(v, Remove(fs, path), c, s).state.results ==> e.path != path
  {
    var after := Remove(fs, path);
    if Start(v, after, c, s).raised.Some? {
      return;
    }
    StartShowsMount(v, after, c, s);
    var m := MountFor(c).value;
    var shown := Start(v, after, c, s).state.results;
    assert Scan(after, m) == Ok(shown);
    if |path| == |m| + 1 && path[..|m|] == m {
      assert path == m + [path[|m|]];
      ScanAfterRemove(fs, m, path[|m|]);
    } else {
      forall e | e in shown ensures e.path != path {
        assert |e.path| == |m| + 1 && e.path[..|m|] == m;
      }
    }
  }

  /** A successful start shows a scan of the selected device's mountpoint. */
  lemma StartShowsMount(v: StartVariant, fs: Node, c: DeviceChoice, s: Nav)
    requires Start(v, fs, c, s).raised.None?
    ensures MountFor(c).Ok? && Start(v, fs, c, s).state.current == MountFor(c).value
    ensures Scan(fs, MountFor(c).value) == Ok(Start(v, fs, c, s).state.results)
  {
  }

  /** A filesystem with a readable data volume holding a folder `x`, which
      holds an empty folder `y`, and an unreadable second volume. */
  const ExampleFs := Dir("", [Dir("data", [Dir("x", [Dir("y", [])])]), Unreadable("mnt")])
  const ExampleDevices := DeviceChoice(["d", "m"], [["data"], ["mnt"]], "d")
  const ExampleFolder := Entry(["data", "x"], 0)
  const ExampleSubfolder := Entry(["data", "x", "y"], 0)

  lemma ExampleScans()
    ensures Scan(ExampleFs, ["data"]) == Ok([ExampleFolder])
    ensures Scan(ExampleFs, ["mnt"]) == Err(PermissionDenied)
    ensures Scan(ExampleFs, ["data", "x"]) == Ok([ExampleSubfolder])
  {
    ExampleScanData();
    ExampleScanMnt();
    ExampleScanX();
  }

  lemma ExampleScanMnt()
    ensures Scan(ExampleFs, ["mnt"]) == Err(PermissionDenied)
  {
    assert Lookup(ExampleFs, ["mnt"]) == Some(Unreadable("mnt"));
  }

  lemma ExampleScanData()
    ensures Scan(ExampleFs, ["data"]) == Ok([ExampleFolder])
  {
    var x := Dir("x", [Dir("y", [])]);
    assert Lookup(ExampleFs, ["data"]) == Some(Dir("data", [x]));
    assert Bytes(x) == 0 by {
      assert [Dir("y", [])][1..] == [];
    }
    assert ["data"] + [x.name] == ["data", "x"];
    assert [x][..0] == [];
    assert ListEntries(["data"], [x]) == [ExampleFolder];
    SingletonSorted(ExampleFolder);
  }

  lemma ExampleScanX()
    ensures Scan(ExampleFs, ["data", "x"]) == Ok([ExampleSubfolder])
  {
    var y := Dir("y", []);
    assert Lookup(ExampleFs, ["data", "x"]) == Some(Dir("x", [y]));
    assert ["data", "x"] + [y.name] == ["data", "x", "y"];
    assert [y][..0] == [];
    assert ListEntries(["data", "x"], [y]) == [ExampleSubfolder];
    SingletonSorted(ExampleSubfolder);
  }

  lemma SingletonSorted(e: Entry)
    ensures Sorting.SortDescending([e], SizeOf) == [e]
  {
    assert [e][1..] == [];
    assert Sorting.SortDescending([e], SizeOf) == Sorting.Insert(e, Sorting.SortDescending([], SizeOf), SizeOf);
  }

  lemma RunFour(v: StartVariant, w: World, a: Action, b: Action, c: Action, d: Action)
    ensures Run(v, w, [a, b, c, d]) == Apply(v, Apply(v, Apply(v, Apply(v, w, a), b), c), d)
  {
    var acts := [a, b, c, d];
    assert acts[1..] == [b, c, d];
    assert [b, c, d][1..] == [c, d];
    assert [c, d][1..] == [d];
    assert [d][1..] == [];
    var w1 := Apply(v, w, a);
    var w2 := Apply(v, w1, b);
    var w3 := Apply(v, w2, c);
    assert Run(v, w, acts) == Run(v, w1, [b, c, d]);
    assert Run(v, w1, [b, c, d]) == Run(v, w2, [c, d]);
    assert Run(v, w2, [c, d]) == Run(v, w3, [d]);
    assert Run(v, w3, [d]) == Run(v, Apply(v, w3, d), []);
  }

  lemma ExampleStartOnData()
    ensures Apply(AsWritten, World(ExampleFs, Initial), PressStart(ExampleDevices))
         == World(ExampleFs, Nav(["data"], ["data"], [ExampleFolder], None))
  {
    ExampleScans();
  }

  lemma ExampleFailedStartOnMnt()
    ensures Apply(AsWritten, World(ExampleFs, Nav(["data"], ["data"], [ExampleFolder], None)),
                  PressStart(ExampleDevices.(selected := "m")))
         == World(ExampleFs, Nav(["mnt"], ["mnt"], [ExampleFolder], None))
  {
    ExampleScanMnt();
  }

  lemma ExampleOpenStaleFolder()
    ensures Apply(AsWritten, World(ExampleFs, Nav(["mnt"], ["mnt"], [ExampleFolder], Some(ExampleFolder))),
                  ScanThisFolder)
         == World(ExampleFs, Nav(["mnt"], ["data", "x"], [ExampleSubfolder], None))
  {
    ExampleScans();
  }

  lemma ExampleEndsOutsideRoot()
    ensures WithinRoot(Initial)
    ensures !WithinRoot(Nav(["mnt"], ["data", "x"], [ExampleSubfolder], None))
    ensures !(["mnt"] <= ["data", "x"])
  {
    assert ["data", "x"][..1] == ["data"];
    assert ["data"][0] != ["mnt"][0] by {
      assert "mnt"[0] != "data"[0];
    }
  }

  lemma ExampleBackFails()
    ensures BackOffered(Nav(["mnt"], ["data", "x"], [ExampleSubfolder], None))
    ensures BackToRoot(ExampleFs, Nav(["mnt"], ["data", "x"], [ExampleSubfolder], None)).raised
         == Some(ScanFailed(PermissionDenied))
  {
    ExampleScans();
  }

  /**
   * As written, a start that fails on an unreadable mountpoint moves the
   * root but keeps the previous session's results on screen; opening one of
   * them then views a directory outside the root. Its subfolder is shown with
   * a Back button, and Back rescans the unreadable mountpoint and fails
   * rather than returning to the folder's own root.
   */
  lemma FailedStartLeavesViewOutsideRoot()
    ensures var w := Run(AsWritten, World(ExampleFs, Initial),
                         [PressStart(ExampleDevices), PressStart(ExampleDevices.(selected := "m")),
                          PickFolder(ExampleFolder), ScanThisFolder]);
      && WithinRoot(Initial) && !WithinRoot(w.nav) && !(w.nav.root <= w.nav.current)
      && BackOffered(w.nav) && BackToRoot(w.fs, w.nav).raised == Some(ScanFailed(PermissionDenied))
  {
    var w0 := World(ExampleFs, Initial);
    ExampleStartOnData();
    ExampleFailedStartOnMnt();
    var w2 := World(ExampleFs, Nav(["mnt"], ["mnt"], [ExampleFolder], None));
    assert Apply(AsWritten, w2, PickFolder(ExampleFolder))
        == World(ExampleFs, Nav(["mnt"], ["mnt"], [ExampleFolder], Some(ExampleFolder)));
    ExampleOpenStaleFolder();
    RunFour(AsWritten, w0, PressStart(ExampleDevices), PressStart(ExampleDevices.(selected := "m")),
            PickFolder(ExampleFolder), ScanThisFolder);
    ExampleEndsOutsideRoot();
    ExampleBackFails();
  }
}

=== FILE: size_format.dfy ===
/**
 * `_format_size`: pick a unit by dividing by 1024 until the value is below
 * 1024, stopping at PB, which has no upper bound. The value is kept as an
 * exact fraction; its two-decimal rendering is not modelled.
 */
module SizeFormat {

  datatype Unit = B | KB | MB | GB | TB | PB

  /** The units the loop tries in turn; PB is the fall-through. */
  const LoopUnits: seq<Unit> := [B, KB, MB, GB, TB]

  /** The position of a unit in B, KB, MB, GB, TB, PB: the value shown in it
      is the size divided by 1024 to that power. */
  function Rank(u: Unit): nat
  {
    match u
    case B => 0
    case KB => 1
    case MB => 2
    case GB => 3
    case TB => 4
    case PB => 5
  }

  function Pow1024(k: nat): (r: nat)
    ensures r >= 1
  {
    if k == 0 then 1 else 1024 * Pow1024(k - 1)
  }

  /** An exact non-negative fraction `num / den`. */
  datatype Ratio = Ratio(num: nat, den: nat)
  {
    /** The fraction as a real number. */
    function Value(): real
      requires den > 0
    {
      num as real / den as real
    }

    /** `num / den < bound`, compared without division. */
    predicate Below(bound: nat)
    {
      num < bound * den
    }
  }

  /** A size as the program displays it: a value and its unit. */
  datatype Shown = Shown(unit: Unit, value: Ratio)

  /**
   * The loop from its `i`-th iteration on, with `value` the size divided by
   * 1024 `i` times (`size /= 1024` scales the denominator). Earlier
   * iterations found the value at least 1024 each time.
   */
  function FormatFrom(i: nat, value: Ratio): (r: Shown)
    requires i <= 5 && value.den == Pow1024(i)
    requires i > 0 ==> value.num >= Pow1024(i)
    ensures i <= Rank(r.unit)
    ensures r.value == Ratio(value.num, Pow1024(Rank(r.unit)))
    ensures Rank(r.unit) > 0 ==> value.num >= Pow1024(Rank(r.unit))
    ensures Rank(r.unit) < 5 ==> value.num < Pow1024(Rank(r.unit) + 1)
    decreases 5 - i
  {
    if i == 5 then Shown(PB, value)
    else if value.Below(1024) then Shown(LoopUnits[i], value)
    else FormatFrom(i + 1, Ratio(value.num, value.den * 1024))
  }

  /**
   * The displayed unit is the one whose range holds the size (`KB` for
   * `1024 <= size < 1024^2`, and so on, PB for everything from `1024^5`
   * up), and the displayed value is the size divided by that unit's size.
   */
  function FormatSize(size: nat): (r: Shown)
    ensures r.value == Ratio(size, Pow1024(Rank(r.unit)))
    ensures Rank(r.unit) > 0 ==> size >= Pow1024(Rank(r.unit))
    ensures Rank(r.unit) < 5 ==> size < Pow1024(Rank(r.unit) + 1)
  {
    FormatFrom(0, Ratio(size, 1))
  }

  /** The value shown is below 1024 in every unit but PB and at least 1 in
      every unit but B. */
  lemma ShownValueBounds(size: nat)
    ensures var r := FormatSize(size);
      && (r.unit != PB ==> r.value.Below(1024))
      && (r.unit != B ==> r.value.num >= r.value.den)
  {
  }

  /** The unit is the k-th of B, KB, MB, GB, TB exactly when the size is
      below 1024^(k+1) and no smaller unit holds it; PB exactly when no
      unit below it does. */
  lemma FormatUnitIff(size: nat, k: nat)
    requires k <= 5
    ensures Rank(FormatSize(size).unit) == k <==>
      (k == 0 || size >= Pow1024(k)) && (k == 5 || size < Pow1024(k + 1))
  {
  }

  lemma FormatExamples()
    ensures FormatSize(0) == Shown(B, Ratio(0, 1))
    ensures FormatSize(1024).unit == KB && FormatSize(1024).value.Value() == 1.0
    ensures FormatSize(1536).unit == KB && FormatSize(1536).value.Value() == 1.5
    ensures FormatSize(Pow1024(5)).unit == PB && FormatSize(Pow1024(5)).value.Value() == 1.0
    ensures FormatSize(Pow1024(6)).unit == PB && FormatSize(Pow1024(6)).value.Value() == 1024.0
  {
  }
}

=== FILE: sorting.dfy ===
/**
 * `list.sort(key=..., reverse=True)` on a list of entries: a stable sort into
 * non-increasing key order, where entries with equal keys keep the order in
 * which they were listed.
 */
module Sorting {

  /** Keys never increase from one position to a later one. */
  ghost predicate Descending<T>(s: seq<T>, key: T -> nat)
  {
    forall i, j :: 0 <= i < j < |s| ==> key(s[i]) >= key(s[j])
  }

  /** The subsequence of elements whose key is `k`, in their original order. */
  function WithKey<T>(s: seq<T>, key: T -> nat, k: nat): (r: seq<T>)
    ensures |r| <= |s|
    ensures forall y :: y in r ==> y in s && key(y) == k
  {
    if s == [] then []
    else if key(s[0]) == k then [s[0]] + WithKey(s[1..], key, k)
    else WithKey(s[1..], key, k)
  }

  /**
   * What a stable descending sort of `s` must return: a descending sequence
   * that, for every key, holds exactly the elements of `s` with that key in
   * the order `s` lists them.
   */
  ghost predicate StableDescendingSortOf<T>(r: seq<T>, s: seq<T>, key: T -> nat)
  {
    Descending(r, key) && forall k: nat :: WithKey(r, key, k) == WithKey(s, key, k)
  }

  /** Places `x` before the first element whose key is not larger than its
      own, so that `x` precedes every element of equal key. */
  function Insert<T>(x: T, s: seq<T>, key: T -> nat): (r: seq<T>)
    ensures multiset(r) == multiset(s) + multiset{x}
    ensures Descending(s, key) ==> Descending(r, key)
  {
    if s == [] || key(x) >= key(s[0]) then [x] + s
    else
      var t := Insert(x, s[1..], key);
      assert s == [s[0]] + s[1..];
      assert Descending(s, key) ==> Descending([s[0]] + t, key) by {
        if Descending(s, key) {
          HeadBoundsTail(s, key);
          BoundKeptByInsert(s[0], x, s[1..], t, key);
          DescendingCons(s[0], t, key);
        }
      }
      [s[0]] + t
  }

  /** The head of a descending sequence bounds the keys of its tail. */
  lemma HeadBoundsTail<T>(s: seq<T>, key: T -> nat)
    requires s != [] && Descending(s, key)
    ensures forall y :: y in s[1..] ==> key(y) <= key(s[0])
  {
    forall y | y in s[1..] ensures key(y) <= key(s[0]) {
      var j :| 0 <= j < |s[1..]| && s[1..][j] == y;
      assert s[j + 1] == y;
    }
  }

  /** A bound on every key of `rest` and on `x` bounds every key of a
      sequence holding `rest` and `x`. */
  lemma BoundKeptByInsert<T>(h: T, x: T, rest: seq<T>, t: seq<T>, key: T -> nat)
    requires multiset(t) == multiset(rest) + multiset{x}
    requires key(x) <= key(h) && forall y :: y in rest ==> key(y) <= key(h)
    ensures forall y :: y in t ==> key(y) <= key(h)
  {
    forall y | y in t ensures key(y) <= key(h) {
      assert y in multiset(t);
      if y != x {
        assert y in multiset(rest);
      }
    }
  }

  /** A head no smaller than every later key extends a descending sequence. */
  lemma DescendingCons<T>(h: T, t: seq<T>, key: T -> nat)
    requires Descending(t, key)
    requires forall y :: y in t ==> key(y) <= key(h)
    ensures Descending([h] + t, key)
  {
  }

  /** Insertion sort from the back of the list: stable and descending. */
  function SortDescending<T>(s: seq<T>, key: T -> nat): (r: seq<T>)
    ensures multiset(r) == multiset(s)
    ensures Descending(r, key)
  {
    if s == [] then []
    else
      assert s == [s[0]] + s[1..];
      Insert(s[0], SortDescending(s[1..], key), key)
  }

  /** The sort keeps exactly the elements of its input, and its length. */
  lemma SortKeepsElements<T>(s: seq<T>, key: T -> nat)
    ensures forall x :: x in SortDescending(s, key) <==> x in s
    ensures |SortDescending(s, key)| == |s|
  {
    var r := SortDescending(s, key);
    assert |multiset(r)| == |multiset(s)|;
    forall x ensures x in r <==> x in s {
      assert x in r <==> x in multiset(r);
    }
  }

  /** Inserting `x` in front of every element of key `key(x)` and behind every
      larger one means `x` becomes the first element with its key. */
  lemma {:induction false} InsertWithKey<T>(x: T, s: seq<T>, key: T -> nat, k: nat)
    requires Descending(s, key)
    ensures WithKey(Insert(x, s, key), key, k) == WithKey([x] + s, key, k)
    decreases |s|
  {
    if s == [] || key(x) >= key(s[0]) {
    } else {
      InsertWithKey(x, s[1..], key, k);
      assert ([s[0]] + Insert(x, s[1..], key))[1..] == Insert(x, s[1..], key);
      assert ([x] + s)[1..] == s;
      assert ([x] + s[1..])[1..] == s[1..];
      if key(s[0]) == k {
        // s is descending and key(x) < key(s[0]), so x's key differs from k
        assert key(x) != k;
      }
    }
  }

  /** Equal keys keep their listing order. */
  lemma {:induction false} SortIsStable<T>(s: seq<T>, key: T -> nat, k: nat)
    ensures WithKey(SortDescending(s, key), key, k) == WithKey(s, key, k)
    decreases |s|
  {
    if s != [] {
      var rest := SortDescending(s[1..], key);
      SortIsStable(s[1..], key, k);
      InsertWithKey(s[0], rest, key, k);
      assert ([s[0]] + rest)[1..] == rest;
    }
  }

  /** The program's sort meets the definition of a stable descending sort. */
  lemma SortDescendingIsStableSort<T>(s: seq<T>, key: T -> nat)
    ensures StableDescendingSortOf(SortDescending(s, key), s, key)
  {
    forall k: nat
      ensures WithKey(SortDescending(s, key), key, k) == WithKey(s, key, k)
    {
      SortIsStable(s, key, k);
    }
  }

  /** In a descending sequence no element has a key above the first one. */
  lemma HeadKeyIsLargest<T>(s: seq<T>, key: T -> nat, k: nat)
    requires Descending(s, key) && s != []
    requires WithKey(s, key, k) != []
    ensures k <= key(s[0])
  {
  }

  /** The first element is listed under its own key. */
  lemma HeadHasKey<T>(s: seq<T>, key: T -> nat)
    requires s != []
    ensures WithKey(s, key, key(s[0])) != []
  {
  }

  /** Two descending sequences with the same per-key subsequences begin with
      the same element. */
  lemma {:induction false} SameHead<T>(a: seq<T>, b: seq<T>, key: T -> nat)
    requires Descending(a, key) && Descending(b, key) && a != [] && b != []
    requires WithKey(a, key, key(a[0])) == WithKey(b, key, key(a[0]))
    requires WithKey(a, key, key(b[0])) == WithKey(b, key, key(b[0]))
    ensures a[0] == b[0]
  {
    HeadKeyIsLargest(b, key, key(a[0]));
    HeadKeyIsLargest(a, key, key(b[0]));
    var k := key(a[0]);
    assert key(b[0]) == k;
    assert WithKey(a, key, k)[0] == a[0];
    assert WithKey(b, key, k)[0] == b[0];
  }

  /** Dropping a common head keeps the per-key subsequences equal. */
  lemma TailsShareKeys<T>(a: seq<T>, b: seq<T>, key: T -> nat)
    requires a != [] && b != [] && a[0] == b[0]
    requires forall k: nat :: WithKey(a, key, k) == WithKey(b, key, k)
    ensures forall k: nat :: WithKey(a[1..], key, k) == WithKey(b[1..], key, k)
  {
    forall k: nat ensures WithKey(a[1..], key, k) == WithKey(b[1..], key, k) {
      assert WithKey(a, key, k) == WithKey(b, key, k);
      if key(a[0]) == k {
        assert WithKey(a[1..], key, k) == WithKey(a, key, k)[1..];
        assert WithKey(b[1..], key, k) == WithKey(b, key, k)[1..];
      } else {
        assert WithKey(a, key, k) == WithKey(a[1..], key, k);
        assert WithKey(b, key, k) == WithKey(b[1..], key, k);
      }
    }
  }

  /** A descending sequence is determined by its per-key subsequences. */
  lemma {:induction false} DescendingDeterminedByKeys<T>(a: seq<T>, b: seq<T>, key: T -> nat)
    requires Descending(a, key) && Descending(b, key)
    requires forall k: nat :: WithKey(a, key, k) == WithKey(b, key, k)
    ensures a == b
    decreases |a|
  {
    if a == [] && b == [] {
    } else if b == [] {
      HeadHasKey(a, key);
      assert false;
    } else if a == [] {
      HeadHasKey(b, key);
      assert false;
    } else {
      SameHead(a, b, key);
      TailsShareKeys(a, b, key);
      DescendingDeterminedByKeys(a[1..], b[1..], key);
      assert a == [a[0]] + a[1..];
      assert b == [b[0]] + b[1..];
    }
  }

  /** The stable descending sort of a list is unique, and it is the one the
      program computes. */
  lemma StableSortIsUnique<T>(r: seq<T>, s: seq<T>, key: T -> nat)
    ensures StableDescendingSortOf(r, s, key) <==> r == SortDescending(s, key)
  {
    SortDescendingIsStableSort(s, key);
    if StableDescendingSortOf(r, s, key) {
      DescendingDeterminedByKeys(r, SortDescending(s, key), key);
    }
  }
}

=== FILE: tree.dfy ===
/**
 * The filesystem as an immutable snapshot: a tree of named nodes.
 *
 * A `Path` is the sequence of names from the filesystem root, so joining a
 * directory path with an entry name (`os.path.join`) is appending.
 */
module FileTree {
  import opened Wrappers

  type Path = seq<string>

  /** What a symbolic link resolves to when it is followed. */
  datatype LinkTarget =
    | ToFile(size: nat)  // a regular file of `size` bytes
    | ToDir              // a directory (its contents are never visited)
    | ToSpecial          // a fifo, socket or device node
    | Dangling           // nothing: the target does not exist

  datatype Node =
    | Dir(name: string, children: seq<Node>)           // a directory that can be listed and searched
    | Unsearchable(name: string, children: seq<Node>)  // a directory that can be listed but not searched
    | File(name: string, size: nat)                    // a regular file
    | Special(name: string)                            // a fifo, socket or device node
    | Link(name: string, target: LinkTarget)           // a symbolic link
    | Unreadable(name: string)                         // a directory that cannot be listed

  /** `DirEntry.is_dir()`, which follows links: how `os.walk` splits an
      entry into `dirnames` (true) or `filenames` (false). */
  predicate IsWalkDir(n: Node)
  {
    n.Dir? || n.Unsearchable? || n.Unreadable? || (n.Link? && n.target.ToDir?)
  }

  /** `DirEntry.is_dir(follow_symlinks=False)`: the same test without
      following links, so it differs from `IsWalkDir` on links alone. */
  predicate IsRealDir(n: Node)
    ensures IsRealDir(n) <==> IsWalkDir(n) && !n.Link?
  {
    n.Dir? || n.Unsearchable? || n.Unreadable?
  }

  /** A directory `os.scandir` can list. */
  predicate Listable(n: Node)
  {
    n.Dir? || n.Unsearchable?
  }

  /** The bytes `_get_folder_size` adds for one name in `filenames`:
      `os.path.isfile` and `os.path.getsize` both follow links, and an entry
      that is not a regular file adds nothing. */
  function FileBytes(n: Node): (r: nat)
    ensures n.File? ==> r == n.size
    ensures n.Link? && n.target.ToFile? ==> r == n.target.size
    ensures r > 0 ==> n.File? || (n.Link? && n.target.ToFile?)
    ensures IsWalkDir(n) ==> r == 0
  {
    match n
    case File(_, s) => s
    case Link(_, ToFile(s)) => s
    case _ => 0
  }

  /**
   * The disk usage of a subtree: the sum, over every regular file that can
   * be reached without following a directory link, of its size, where a
   * link to a regular file counts its target's size. Nothing inside a
   * directory that cannot be listed, or that cannot be searched, can be
   * reached. This is the reference the folder walk is proved against.
   */
  function Bytes(n: Node): nat
  {
    match n
    case Dir(_, cs) => BytesAll(cs)
    case Unsearchable(_, _) => 0
    case _ => FileBytes(n)
  }

  function BytesAll(cs: seq<Node>): nat
  {
    if cs == [] then 0 else Bytes(cs[0]) + BytesAll(cs[1..])
  }

  /** The index of the first child called `name`, if any. */
  function FindChild(cs: seq<Node>, name: string): (r: Option<nat>)
    ensures r.Some? ==> r.value < |cs| && cs[r.value].name == name
    ensures r.Some? ==> forall j :: 0 <= j < r.value ==> cs[j].name != name
    ensures r.None? ==> forall j :: 0 <= j < |cs| ==> cs[j].name != name
  {
    if cs == [] then None
    else if cs[0].name == name then Some(0)
    else match FindChild(cs[1..], name)
      case None => None
      case Some(i) => Some(i + 1)
  }

  /**
   * How a child of a directory that can be listed but not searched appears
   * to the program. The listing still tells directories from other entries,
   * but every `stat` of the child's path fails: `os.path.isfile` is false,
   * a link cannot be followed (so `os.walk` files it under `filenames`), and
   * a subdirectory cannot be listed.
   */
  function Blind(c: Node): (r: Node)
    ensures r.name == c.name
    ensures IsRealDir(r) <==> IsRealDir(c)
    ensures Bytes(r) == 0 && FileBytes(r) == 0 && !Listable(r)
  {
    if IsRealDir(c) then Unreadable(c.name) else Special(c.name)
  }

  function Blinded(cs: seq<Node>): (r: seq<Node>)
    ensures |r| == |cs| && forall i :: 0 <= i < |cs| ==> r[i] == Blind(cs[i])
  {
    if cs == [] then [] else [Blind(cs[0])] + Blinded(cs[1..])
  }

  /** The entries `os.scandir` yields for a directory it can list. */
  function Listing(n: Node): (r: seq<Node>)
    requires Listable(n)
    ensures n.Dir? ==> r == n.children
    ensures |r| == |n.children|
    ensures forall i :: 0 <= i < |r| ==>
      r[i].name == n.children[i].name && (IsRealDir(r[i]) <==> IsRealDir(n.children[i]))
    ensures n.Unsearchable? ==> forall i :: 0 <= i < |r| ==> Bytes(r[i]) == 0 && !Listable(r[i])
  {
    if n.Dir? then n.children else Blinded(n.children)
  }

  /** The node a path names, descending through searchable directories. */
  function Lookup(n: Node, p: Path): Option<Node>
    decreases p
  {
    if p == [] then Some(n)
    else match n
      case Dir(_, cs) =>
        (match FindChild(cs, p[0])
         case None => None
         case Some(i) => Lookup(cs[i], p[1..]))
      case _ => None
  }

  /** The children left after removing every child called `name`. */
  function WithoutChild(cs: seq<Node>, name: string): (r: seq<Node>)
    ensures forall c :: c in r <==> c in cs && c.name != name
  {
    if cs == [] then []
    else if cs[0].name == name then WithoutChild(cs[1..], name)
    else [cs[0]] + WithoutChild(cs[1..], name)
  }

  /** The children called `name`. */
  function Named(cs: seq<Node>, name: string): (r: seq<Node>)
    ensures forall c :: c in r <==> c in cs && c.name == name
  {
    if cs == [] then []
    else if cs[0].name == name then [cs[0]] + Named(cs[1..], name)
    else Named(cs[1..], name)
  }

  /**
   * The tree after a successful `shutil.rmtree(path)`: the entries the path
   * names are gone from their directory, and everything else is as it was.
   * A path that does not lead through searchable directories to a listable
   * one names nothing, and the tree is unchanged.
   */
  function Remove(n: Node, p: Path): (r: Node)
    ensures r.name == n.name
    ensures !Listable(n) ==> r == n
    ensures Listable(n) <==> Listable(r)
    decreases p
  {
    if p == [] then n
    else match n
      case Dir(name, cs) =>
        if |p| == 1 then Dir(name, WithoutChild(cs, p[0]))
        else (match FindChild(cs, p[0])
          case None => n
          case Some(i) => Dir(name, cs[i := Remove(cs[i], p[1..])]))
      case Unsearchable(name, cs) =>
        if |p| == 1 then Unsearchable(name, WithoutChild(cs, p[0])) else n
      case _ => n
  }

  /** Replacing a child by one of the same name does not change which child
      a name finds. */
  lemma {:induction false} FindChildAfterUpdate(cs: seq<Node>, i: nat, c: Node, name: string)
    requires i < |cs| && c.name == cs[i].name
    ensures FindChild(cs[i := c], name) == FindChild(cs, name)
    decreases |cs|
  {
    if cs[0].name != name {
      if i == 0 {
        assert cs[i := c][1..] == cs[1..];
      } else {
        assert cs[i := c][1..] == cs[1..][i - 1 := c];
        FindChildAfterUpdate(cs[1..], i - 1, c, name);
      }
    }
  }

  /**
   * After removing `p + [x]`, the directory at `p` is the same directory
   * without its children called `x`; if `p` does not name a listable
   * directory, what it names is unchanged.
   */
  lemma {:induction false} LookupAfterRemove(n: Node, p: Path, x: string)
    ensures Lookup(Remove(n, p + [x]), p) ==
      match Lookup(n, p)
      case Some(Dir(name, cs)) => Some(Dir(name, WithoutChild(cs, x)))
      case Some(Unsearchable(name, cs)) => Some(Unsearchable(name, WithoutChild(cs, x)))
      case other => other
    decreases p
  {
    if p != [] && n.Dir? {
      var q := p[1..];
      assert (p + [x])[1..] == q + [x];
      assert (p + [x])[0] == p[0];
      match FindChild(n.children, p[0])
      case None =>
      case Some(i) =>
        var c := Remove(n.children[i], q + [x]);
        FindChildAfterUpdate(n.children, i, c, p[0]);
        LookupAfterRemove(n.children[i], q, x);
    }
  }

  lemma {:induction false} BytesAllCons(c: Node, cs: seq<Node>)
    ensures BytesAll([c] + cs) == Bytes(c) + BytesAll(cs)
  {
    assert ([c] + cs)[0] == c;
    assert ([c] + cs)[1..] == cs;
  }

  /** Splitting a listing by one name splits its disk usage. */
  lemma {:induction false} SplitNamed(cs: seq<Node>, name: string)
    ensures BytesAll(WithoutChild(cs, name)) + BytesAll(Named(cs, name)) == BytesAll(cs)
    decreases |cs|
  {
    if cs != [] {
      SplitNamed(cs[1..], name);
      if cs[0].name == name {
        BytesAllCons(cs[0], Named(cs[1..], name));
      } else {
        BytesAllCons(cs[0], WithoutChild(cs[1..], name));
      }
    }
  }

  /** Replacing one child changes the listing's disk usage by the difference. */
  lemma {:induction false} BytesAllUpdate(cs: seq<Node>, i: nat, c: Node)
    requires i < |cs|
    ensures BytesAll(cs[i := c]) + Bytes(cs[i]) == BytesAll(cs) + Bytes(c)
    decreases i
  {
    if i == 0 {
      assert cs[i := c][1..] == cs[1..];
    } else {
      assert cs[i := c][1..] == cs[1..][i - 1 := c];
      BytesAllUpdate(cs[1..], i - 1, c);
    }
  }

  /** The disk usage of the children called `x` of the listable, searchable
      directory at `p`, and nothing if `p` names no such directory. */
  function RemovedBytes(n: Node, p: Path, x: string): nat
  {
    match Lookup(n, p)
    case Some(Dir(_, cs)) => BytesAll(Named(cs, x))
    case _ => 0
  }

  /**
   * Removing `p + [x]` lowers the disk usage of the whole tree by exactly
   * the disk usage of what was removed, so no other file's bytes are lost.
   * Inside a directory that cannot be searched nothing was counted, and
   * nothing changes.
   */
  lemma {:induction false} BytesAfterRemove(n: Node, p: Path, x: string)
    ensures Bytes(Remove(n, p + [x])) + RemovedBytes(n, p, x) == Bytes(n)
    decreases p
  {
    if p == [] {
      assert p + [x] == [x];
      if n.Dir? {
        SplitNamed(n.children, x);
      }
    } else if n.Dir? {
      var q := p[1..];
      assert (p + [x])[1..] == q + [x];
      assert (p + [x])[0] == p[0];
      match FindChild(n.children, p[0])
      case None =>
      case Some(i) =>
        var c := Remove(n.children[i], q + [x]);
        BytesAfterRemove(n.children[i], q, x);
        BytesAllUpdate(n.children, i, c);
    }
  }

  /** Without the children called `x`, a different name finds the same child. */
  lemma {:induction false} FindChildWithout(cs: seq<Node>, x: string, y: string)
    requires x != y
    ensures FindChild(WithoutChild(cs, x), y).None? <==> FindChild(cs, y).None?
    ensures FindChild(cs, y).Some? ==>
      WithoutChild(cs, x)[FindChild(WithoutChild(cs, x), y).value] == cs[FindChild(cs, y).value]
    decreases |cs|
  {
    if cs != [] {
      var rest := WithoutChild(cs[1..], x);
      if cs[0].name == x {
        assert WithoutChild(cs, x) == rest;
        FindChildWithout(cs[1..], x, y);
      } else {
        assert WithoutChild(cs, x) == [cs[0]] + rest;
        assert ([cs[0]] + rest)[0] == cs[0];
        assert ([cs[0]] + rest)[1..] == rest;
        if cs[0].name != y {
          FindChildWithout(cs[1..], x, y);
        }
      }
    }
  }

  /** Two paths with the same first name are prefixes of each other exactly
      when their tails are. */
  lemma PrefixTail(a: Path, b: Path)
    requires a != [] && b != [] && a[0] == b[0]
    ensures a <= b <==> a[1..] <= b[1..]
  {
    assert a == [a[0]] + a[1..];
    assert b == [b[0]] + b[1..];
  }

  /**
   * A removal leaves every other part of the tree as it was: a path that is
   * neither on the way to the removed entry nor inside it names the same
   * node before and after.
   */
  lemma {:induction false} LookupElsewhere(n: Node, p: Path, x: string, q: Path)
    requires !(q <= p) && !(p + [x] <= q)
    ensures Lookup(Remove(n, p + [x]), q) == Lookup(n, q)
    decreases p
  {
    if p == [] {
      assert p + [x] == [x];
      assert ([x] <= q) == (q[0] == x);
      if n.Dir? {
        FindChildWithout(n.children, x, q[0]);
      }
    } else if n.Dir? {
      var cs := n.children;
      assert (p + [x])[1..] == p[1..] + [x];
      assert (p + [x])[0] == p[0];
      match FindChild(cs, p[0])
      case None =>
      case Some(i) =>
        var c := Remove(cs[i], p[1..] + [x]);
        FindChildAfterUpdate(cs, i, c, q[0]);
        if q[0] == p[0] {
          PrefixTail(q, p);
          PrefixTail(p + [x], q);
          LookupElsewhere(cs[i], p[1..], x, q[1..]);
        }
    }
  }
}

=== FILE: wrappers.dfy ===
/** Small failure-carrying datatypes shared by the other modules. */
module Wrappers {

  /** An optional value: the program's `None` or a present value. */
  datatype Option<+T> = None | Some(value: T)

  /** The outcome of an operation that either yields a value or raises. */
  datatype Result<+T, +E> = Ok(value: T) | Err(error: E)
}
